=== FILE: README.md ===
# Boron Files: listing parser, tree drawing and theme session, in Dafny

Boron Files draws a typed-in list of file paths as a directory tree with chosen colours.
All of its behaviour sits in one route module, `app/routes/index.tsx`, and this project models three parts of it:

- **The loader's parser.** The listing is one string. It is trimmed as a whole and split on line feeds, and empty lines are skipped. Each line is split on `/` if it contains one and on `\` otherwise. Segments equal to `.` and segments containing `:`, such as drive letters, are skipped. The remaining segments are walked from the root of a trie, and a child is created only where one is missing. The trie is `PathTree.Node`, a finite map from segment to subtree.
- **The `Tree` component's ordering.** Each level's keys are split into folders (the child has children) and files (the child has none), and each group is sorted. Folders are drawn first, each with its own subtree one level deeper, and the files come after them. `Render.Listing` is the nested output. `Render.Rows` is the same output as a flat list of `<li>` rows in document order.
- **The action's update rule.** The session holds a listing and a theme (three colours). `resetTheme` replaces only the theme, with the default `#15232d` / `#cdcdcd` / `#cdcdcd`. Any other submission replaces the listing and all three colours.

Supporting modules:

- `Text` models JavaScript's `trim`, with the exact ECMAScript whitespace and line-terminator set, and `split` on one character.
- `Order` models the default `sort` order on strings and the sort of a level's keys.
- `Seqs` holds small shared facts about sequences.
- `ListingExamples` works through concrete listings.

Where the code does something surprising, the model follows the code:

- Empty segments, as in `a//b` or from a leading `/`, become `""` keys.
- A line's own whitespace is kept. The `\r` of a CRLF listing stays in the key (`ListingExamples.CarriageReturnKept`).
- Once a line contains a `/`, its backslashes stay inside segment names.
- A name that appears both as a file line and as a folder prefix ends up a folder, whichever line comes first. Insertion never replaces an existing child, and the tree does not depend on line order (`PathTree.LineOrderIrrelevant`).

## Model

| member | source | states |
|---|---|---|
| `Text.Trim` | app/routes/index.tsx:26-27 | the result is the listing with whitespace removed from both ends and only from the ends; it is empty exactly when the listing is all whitespace |
| `Text.Split` | app/routes/index.tsx:28 | splitting gives at least one piece and no piece contains the separator; `Text.JoinSplit` and `Text.SplitJoin` fix the pieces uniquely |
| `Text.JoinSplit` | app/routes/index.tsx:28 | splitting on one character loses nothing: joining the pieces with it gives back the input |
| `Text.SplitJoin` | app/routes/index.tsx:28 | pieces free of the separator are exactly what splitting their join returns |
| `PathTree.Pieces` | app/routes/index.tsx:31 | a line with `/` splits into `/`-free pieces that join back with `/`; a line without splits into pieces free of both `/` and `\` that join back with `\` |
| `PathTree.BackslashSurvives` | app/routes/index.tsx:31 | in a line with a `/`, a character other than `/` is in the line exactly when it is in one of the line's pieces (before filtering), so every backslash stays inside a piece |
| `PathTree.Filter` | app/routes/index.tsx:33-36 | the kept segments are exactly the line's segments other than `.` and those with a colon, and none is `.` or has a colon |
| `PathTree.FilterOne` | app/routes/index.tsx:33-36 | a single segment is kept exactly when it is not `.` and has no colon |
| `PathTree.FilterAppend` | app/routes/index.tsx:32-36 | the segments are judged one at a time and the kept ones stay in line order; with `FilterOne` this fixes the kept path uniquely |
| `PathTree.Segments` | app/routes/index.tsx:31-36 | the path a line is inserted along: its pieces, split as `Pieces` states, filtered as `FilterOne` and `FilterAppend` state |
| `PathTree.Insert` | app/routes/index.tsx:32-41 | after inserting a path, the path exists; the root gains only the path's first key; every other existing child is unchanged |
| `PathTree.InsertPaths` | app/routes/index.tsx:37-40 | the nodes after an insertion are exactly the nodes before plus the prefixes of the inserted path |
| `PathTree.PathsDetermineTree` | app/routes/index.tsx:25-42 | two tries with the same root-to-node paths are equal, since keys are unique per level |
| `PathTree.InsertMonotone` | app/routes/index.tsx:37-40 | insertion never removes a node: the tree after contains the tree before |
| `PathTree.InsertIdempotent` | app/routes/index.tsx:37-40 | inserting the same path twice gives the same tree as inserting it once |
| `PathTree.InsertCommutes` | app/routes/index.tsx:37-40 | two insertions give the same tree in either order |
| `PathTree.InsertLinesPaths` | app/routes/index.tsx:29-42 | after the line loop, the nodes are the starting nodes plus every prefix of a non-empty line's segment path |
| `PathTree.Build` | app/routes/index.tsx:25-42 | the loader's tree: its nodes are given exactly by `PathTree.BuildPaths`, and a blank listing gives the empty tree (`PathTree.BlankListing`) |
| `PathTree.BuildPaths` | app/routes/index.tsx:25-42 | soundness and completeness of the trie: a path is in the built tree iff it is the root or a prefix of some non-empty line's segment path |
| `PathTree.BuildComplete` | app/routes/index.tsx:29-41 | every non-empty line's segment path is a root-to-node path of the tree |
| `PathTree.BuildSound` | app/routes/index.tsx:26-42 | every non-root node lies on the path of some non-empty line; nothing else is added |
| `PathTree.BuildKeysFiltered` | app/routes/index.tsx:34-35 | no key anywhere in the built tree is `.` or contains `:` |
| `PathTree.BlankListing` | app/routes/index.tsx:23-30 | an empty or whitespace-only listing builds the empty tree |
| `PathTree.LineOrderIrrelevant` | app/routes/index.tsx:26-42 | line order and repeated lines do not change the tree |
| `Order.Lt` | app/routes/index.tsx:274 | the default `sort` comparison of two strings, character by character, a proper prefix first; `Order.LtTrichotomy` and `Order.LtTransitive` state that it is a strict total order |
| `Order.LtTrichotomy` | app/routes/index.tsx:274 | the string order is total and asymmetric: two different keys are ordered exactly one way |
| `Order.LtTransitive` | app/routes/index.tsx:274 | the string order is transitive |
| `Order.InsertSorted` | app/routes/index.tsx:274 | inserting a new key into a strictly sorted list keeps it strictly sorted, with the old keys plus the new one |
| `Order.SortKeys` | app/routes/index.tsx:271-278 | the sorted keys list each key of the set exactly once, in increasing order |
| `Order.SortedEnumerationUnique` | app/routes/index.tsx:274-278 | a set of keys has only one sorted listing, so the sorted output does not depend on the order keys were inserted in |
| `Render.Partition` | app/routes/index.tsx:271-278 | every key of a level is in exactly one group; folders are the keys with non-empty children and files those with empty children; each group is strictly sorted |
| `Render.Draw` | app/routes/index.tsx:270-341 | the drawing shows each level's folders as the sorted folder keys, each with the drawing of its own subtree, and then the sorted file keys |
| `Render.DrawingDeterminesTree` | app/routes/index.tsx:296-341 | the tree can be read back from its drawing, so drawing loses no node |
| `Render.DrawingUnique` | app/routes/index.tsx:271-278 | a tree has only one drawing: the order of entries is fixed at every level |
| `Render.Rows` | app/routes/index.tsx:296-341 | the `<li>` rows in document order: each folder row followed by its subtree one level deeper, then the file rows; `Render.RowsReadBack` states this by parsing the rows back into the drawing |
| `Render.RowsReadBack` | app/routes/index.tsx:296-341 | parsing the rows back, with each folder row taking the deeper rows right after it as its subtree, gives exactly the drawing: the flattening keeps every subtree, in place and one level deeper |
| `Render.RowsDetermineTree` | app/routes/index.tsx:296-341 | the rows of a tree's drawing determine the tree |
| `Render.DeeperRun` | app/routes/index.tsx:312-314 | the rows right after a folder row that lie deeper than it: all of them are deeper, and the next row is not |
| `Render.RowsOfLevel` | app/routes/index.tsx:296-341 | the rows at exactly this level are its folder rows in order, then its file rows in order; every other row is at a deeper level |
| `Render.RowsDeeper` | app/routes/index.tsx:312-314 | a nested subtree is drawn at deeper levels only |
| `Session.Load` | app/routes/index.tsx:21-24 | a missing listing reads as `""` and builds the empty tree; a missing theme reads as the default; the tree is built from the listing |
| `Session.Action` | app/routes/index.tsx:47-67 | the theme is always set afterwards; a reset restores the default theme and keeps the listing; any other submission stores the submitted listing and all three submitted colours |
| `Session.SubmitThenLoad` | app/routes/index.tsx:57-65 | after a submission, the next load shows the submitted colours and listing; a missing listing shows the empty tree |
| `Session.RunState` | app/routes/index.tsx:52-67 | after any sequence of requests, the session holds the listing of the latest non-reset submission and the theme of the latest request |
| `Session.ResetRestoresDefault` | app/routes/index.tsx:53-55 | whatever came before, the load after a reset shows exactly the default colours |
| `Session.ActionAsWritten` | app/routes/index.tsx:52-67 | the route's action with the shared default object; `Session.AsWrittenAgreesWhileDefaultUntouched` and `Session.ResetAfterFirstSubmitAsWritten` state what it does |
| `Session.LoadThemeAsWritten` | app/routes/index.tsx:24 | the loader's theme as written: the session's theme, else the module-level default as it now stands; `Session.ResetAfterFirstSubmitAsWritten` states what a new visitor then sees |
| `Session.ResetAfterFirstSubmitAsWritten` | app/routes/index.tsx:57-62 | with the route's shared default object, a new visitor who picks non-default colours and then resets gets their own colours back, and later new visitors load them too |
| `Session.AsWrittenAgreesWhileDefaultUntouched` | app/routes/index.tsx:52-67 | while the shared default is still the original, the route's action gives the corrected session; it changes the shared default iff the submission is not a reset, the session has no theme yet, and the colours differ from the default |
| `ListingExamples.ExampleTree` | app/routes/index.tsx:26-42 | `src/app/root.tsx`, `src/app/routes/index.tsx`, `README.md` build `src` → `app` → {`root.tsx`, `routes` → `index.tsx`} plus a root file `README.md` |
| `ListingExamples.SegmentsWindows` | app/routes/index.tsx:31-35 | `C:\Users\x\file.txt` splits on backslashes and its drive letter is dropped |
| `ListingExamples.CarriageReturnKept` | app/routes/index.tsx:26-30 | in a CRLF listing the `\r` stays part of the key |

## Left out

- Page layout, inline styles and the zoom arithmetic (`app/routes/index.tsx:106-259` and the style objects in `Tree`) are presentation only. A row keeps only its key, its depth and whether it is a folder.
- Icon lookup (`getIconForFile`, `getIconForOpenFolder`) and the icon URLs are calls into a library that is not part of this model. The folder/file flag on a row stands for which lookup is used.
- Copying to the clipboard with dom-to-image is browser API and asynchronous plumbing with no logic of its own.
- The cookie session storage (`app/session.server.ts`) is modelled only as a record of two optional fields. Signing, serialisation, expiry and the cookie header are library configuration.
- The `json` and `redirect` responses and `app/root.tsx` (the HTML shell) are plumbing.
- The tree is a true finite map. The source uses a plain object, where keys such as `constructor` or `__proto__` hit inherited properties. Those prototype quirks are not modelled.
- `Order.Lt` compares Unicode scalar values, while JavaScript's default sort compares UTF-16 code units. The two orders differ only between characters above U+FFFF and characters from U+E000 to U+FFFF.
- Strings are sequences of Unicode scalar values, so lone UTF-16 surrogates cannot be represented.
- `Session.Form` carries the three colour fields as strings. A form without a colour field (null from `formData.get`) is not modelled. The `files` and `action` fields are optional.
- A cookie theme with only some of its three fields is not modelled: the session's theme is either absent or complete.
- `Session.ActionAsWritten` and `Session.LoadThemeAsWritten` model the shared-default behaviour and carry no contract of their own. What they do is stated by `Session.ResetAfterFirstSubmitAsWritten` and `Session.AsWrittenAgreesWhileDefaultUntouched`.
- No property counts leaves and folders against the number of distinct path prefixes. `PathTree.BuildPaths` already fixes the node set exactly.

## Findings

| source | as written | input that shows it | evidently intended | confidence | as-written member | corrected member |
|---|---|---|---|---|---|---|
| app/routes/index.tsx:57-62 | when the session has no theme, `theme` is the module-level `defaultTheme` object itself, and the three colours are written into it, so the server's default changes | a new visitor submits background `#000000`, then presses Reset Theme | reset restores `#15232d` / `#cdcdcd` / `#cdcdcd`, and new visitors start with those colours | not executed; high, the aliasing follows directly from lines 15, 54 and 59-62 | `Session.ActionAsWritten` with `Session.ResetAfterFirstSubmitAsWritten` | `Session.Action` with `Session.ResetRestoresDefault` |

=== FILE: listing_examples.dfy ===
/** Worked listings: the parser's behaviour on concrete inputs, including its quirks. */
module ListingExamples {
  import opened PathTree
  import Text

  const L1 := "src/app/root.tsx"
  const L2 := "src/app/routes/index.tsx"
  const L3 := "README.md"
  const ExampleListing := L1 + "\n" + L2 + "\n" + L3

  /** Filtering keeps a run of segments none of which is skipped. */
  lemma {:induction false} FilterAllKept(parts: seq<string>)
    requires forall i :: 0 <= i < |parts| ==> Keep(parts[i])
    ensures Filter(parts) == parts
    decreases |parts|
  {
    if parts != [] {
      FilterAllKept(parts[1..]);
      assert parts == [parts[0]] + parts[1..];
    }
  }

  /** A line made of separator-free pieces joined by its separator splits back into them. */
  lemma PiecesOfJoin(parts: seq<string>, sep: char)
    requires |parts| >= 1
    requires sep == '/' || (sep == '\\' && forall i :: 0 <= i < |parts| ==> '/' !in parts[i])
    requires sep == '/' ==> |parts| >= 2
    requires forall i :: 0 <= i < |parts| ==> sep !in parts[i]
    ensures Pieces(Text.Join(parts, sep)) == parts
  {
    var line := Text.Join(parts, sep);
    if sep == '/' {
      assert line == parts[0] + ['/'] + Text.Join(parts[1..], '/');
      assert line[|parts[0]|] == '/';
    } else if '/' in line {
      JoinCharsInPieces(parts, '\\', '/');
    }
    Text.SplitJoin(parts, sep);
  }

  /** A line made of kept pieces joined by its separator is parsed back into them. */
  lemma SegmentsOfJoin(parts: seq<string>, sep: char)
    requires |parts| >= 1
    requires sep == '/' || (sep == '\\' && forall i :: 0 <= i < |parts| ==> '/' !in parts[i])
    requires sep == '/' ==> |parts| >= 2
    requires forall i :: 0 <= i < |parts| ==> sep !in parts[i] && Keep(parts[i])
    ensures Segments(Text.Join(parts, sep)) == parts
  {
    PiecesOfJoin(parts, sep);
    FilterAllKept(parts);
  }

  lemma TrimListing()
    ensures Text.Trim(ExampleListing) == ExampleListing
  {
    assert ExampleListing[0] == 's' && ExampleListing[|ExampleListing| - 1] == 'd';
    assert Text.SkipSpace(ExampleListing, 0) == 0;
    assert Text.SkipSpaceBack(ExampleListing, 0, |ExampleListing|) == |ExampleListing|;
  }

  lemma LinesListing()
    ensures Lines(ExampleListing) == [L1, L2, L3]
  {
    TrimListing();
    var parts := [L1, L2, L3];
    assert parts[1..] == [L2, L3] && parts[1..][1..] == [L3];
    assert Text.Join([L3], '\n') == L3;
    assert Text.Join([L2, L3], '\n') == L2 + "\n" + L3;
    assert Text.Join(parts, '\n') == ExampleListing;
    assert '\n' !in L1 && '\n' !in L2 && '\n' !in L3;
    Text.SplitJoin(parts, '\n');
  }

  lemma Seg1()
    ensures Segments(L1) == ["src", "app", "root.tsx"]
  {
    var parts := ["src", "app", "root.tsx"];
    assert parts[1..] == ["app", "root.tsx"] && parts[1..][1..] == ["root.tsx"];
    assert Text.Join(["root.tsx"], '/') == "root.tsx";
    assert Text.Join(["app", "root.tsx"], '/') == "app/root.tsx";
    assert Text.Join(parts, '/') == L1;
    SegmentsOfJoin(parts, '/');
  }

  // Literal joins are checked one separator at a time: a single lemma for a whole line
  // is too expensive for the solver.

  lemma JoinL2Tail()
    ensures Text.Join(["routes", "index.tsx"], '/') == "routes/index.tsx"
  {
    assert ["routes", "index.tsx"][1..] == ["index.tsx"];
  }

  lemma JoinL2Mid()
    ensures Text.Join(["app", "routes", "index.tsx"], '/') == "app/routes/index.tsx"
  {
    JoinL2Tail();
    assert ["app", "routes", "index.tsx"][1..] == ["routes", "index.tsx"];
  }

  /** The second line is its four segments joined by slashes. */
  lemma JoinL2()
    ensures Text.Join(["src", "app", "routes", "index.tsx"], '/') == L2
  {
    JoinL2Mid();
    assert ["src", "app", "routes", "index.tsx"][1..] == ["app", "routes", "index.tsx"];
    assert Text.Join(["src", "app", "routes", "index.tsx"], '/') == "src" + "/" + "app/routes/index.tsx";
    L2Spelled();
  }

  lemma L2Spelled()
    ensures "src" + "/" + "app/routes/index.tsx" == L2
  {
  }

  lemma Seg2()
    ensures Segments(L2) == ["src", "app", "routes", "index.tsx"]
  {
    JoinL2();
    SegmentsOfJoin(["src", "app", "routes", "index.tsx"], '/');
  }

  lemma Seg3()
    ensures Segments(L3) == ["README.md"]
  {
    assert Text.Join(["README.md"], '\\') == L3;
    SegmentsOfJoin(["README.md"], '\\');
  }

  const Expected := Node(map[
    "src" := Node(map["app" := Node(map["root.tsx" := Empty, "routes" := Node(map["index.tsx" := Empty])])]),
    "README.md" := Empty])

  const T1 := Node(map["src" := Node(map["app" := Node(map["root.tsx" := Empty])])])
  const T2 := Node(map["src" := Node(map["app" := Node(map["root.tsx" := Empty, "routes" := Node(map["index.tsx" := Empty])])])])

  lemma InsertL1()
    ensures Insert(Empty, ["src", "app", "root.tsx"]) == T1
  {
    assert ["src", "app", "root.tsx"][1..] == ["app", "root.tsx"];
    assert ["app", "root.tsx"][1..] == ["root.tsx"];
    assert Insert(Empty, ["root.tsx"]) == Node(map["root.tsx" := Empty]);
    assert Insert(Empty, ["app", "root.tsx"]) == Node(map["app" := Node(map["root.tsx" := Empty])]);
  }

  const Routes := Node(map["routes" := Node(map["index.tsx" := Empty])])
  const App2 := Node(map["root.tsx" := Empty, "routes" := Node(map["index.tsx" := Empty])])

  lemma InsertRoutes()
    ensures Insert(Empty, ["routes", "index.tsx"]) == Routes
  {
    assert ["routes", "index.tsx"][1..] == ["index.tsx"];
    assert Insert(Empty, ["index.tsx"]) == Node(map["index.tsx" := Empty]);
  }

  lemma InsertIntoApp()
    ensures Insert(Node(map["root.tsx" := Empty]), ["routes", "index.tsx"]) == App2
  {
    InsertRoutes();
    assert ["routes", "index.tsx"][1..] == ["index.tsx"];
  }

  lemma InsertL2()
    ensures Insert(T1, ["src", "app", "routes", "index.tsx"]) == T2
  {
    InsertIntoApp();
    assert ["src", "app", "routes", "index.tsx"][1..] == ["app", "routes", "index.tsx"];
    assert ["app", "routes", "index.tsx"][1..] == ["routes", "index.tsx"];
    assert Insert(Node(map["app" := Node(map["root.tsx" := Empty])]), ["app", "routes", "index.tsx"]) ==
      Node(map["app" := App2]);
  }

  lemma InsertL3()
    ensures Insert(T2, ["README.md"]) == Expected
  {
  }

  lemma Step1() ensures Step(Empty, L1) == T1 { Seg1(); InsertL1(); }
  lemma Step2() ensures Step(T1, L2) == T2 { Seg2(); InsertL2(); }
  lemma Step3() ensures Step(T2, L3) == Expected { Seg3(); InsertL3(); }

  lemma LastSteps()
    ensures InsertLines(T1, [L2, L3]) == Expected
  {
    Step2();
    Step3();
    assert [L2, L3][1..] == [L3];
    assert InsertLines(T2, [L3]) == InsertLines(Expected, []);
  }

  lemma StepsOfExample()
    ensures InsertLines(Empty, [L1, L2, L3]) == Expected
  {
    Step1();
    LastSteps();
    assert [L1, L2, L3][1..] == [L2, L3];
  }

  /** Two nested paths sharing `src/app` and one file at the root. */
  lemma ExampleTree()
    ensures Build(ExampleListing) == Expected
  {
    LinesListing();
    StepsOfExample();
  }

  // ---------------------------------------------------------------------------
  // A Windows path: split on backslashes, drive letter dropped

  const WindowsLine := "C:\\Users\\x\\file.txt"

  lemma JoinWindowsTail()
    ensures Text.Join(["x", "file.txt"], '\\') == "x\\file.txt"
  {
    assert ["x", "file.txt"][1..] == ["file.txt"];
  }

  lemma JoinWindowsMid()
    ensures Text.Join(["Users", "x", "file.txt"], '\\') == "Users\\x\\file.txt"
  {
    JoinWindowsTail();
    assert ["Users", "x", "file.txt"][1..] == ["x", "file.txt"];
  }

  /** The Windows line is its four pieces joined by backslashes. */
  lemma JoinWindows()
    ensures Text.Join(["C:", "Users", "x", "file.txt"], '\\') == WindowsLine
  {
    JoinWindowsMid();
    assert ["C:", "Users", "x", "file.txt"][1..] == ["Users", "x", "file.txt"];
  }

  lemma PiecesWindows()
    ensures Pieces(WindowsLine) == ["C:", "Users", "x", "file.txt"]
  {
    JoinWindows();
    PiecesOfJoin(["C:", "Users", "x", "file.txt"], '\\');
  }

  lemma FilterWindows()
    ensures Filter(["C:", "Users", "x", "file.txt"]) == ["Users", "x", "file.txt"]
  {
    var parts := ["C:", "Users", "x", "file.txt"];
    assert parts[1..] == ["Users", "x", "file.txt"];
    assert "C:"[1] == ':';
    FilterAllKept(parts[1..]);
  }

  lemma SegmentsWindows()
    ensures Segments(WindowsLine) == ["Users", "x", "file.txt"]
  {
    PiecesWindows();
    FilterWindows();
  }

  // ---------------------------------------------------------------------------
  // Carriage returns survive: only the listing as a whole is trimmed

  const CrLfListing := "a\r\nb"

  lemma LinesCrLf()
    ensures Lines(CrLfListing) == ["a\r", "b"]
  {
    assert Text.SkipSpace(CrLfListing, 0) == 0;
    assert Text.SkipSpaceBack(CrLfListing, 0, |CrLfListing|) == |CrLfListing|;
    assert Text.Trim(CrLfListing) == CrLfListing;
    var parts := ["a\r", "b"];
    assert parts[1..] == ["b"];
    assert Text.Join(parts, '\n') == CrLfListing;
    Text.SplitJoin(parts, '\n');
  }

  lemma SegmentsCr()
    ensures Segments("a\r") == ["a\r"]
  {
    assert Text.Join(["a\r"], '\\') == "a\r";
    SegmentsOfJoin(["a\r"], '\\');
  }

  lemma CarriageReturnKept()
    ensures "a\r" in Build(CrLfListing).children
  {
    LinesCrLf();
    SegmentsCr();
    BuildComplete(CrLfListing, "a\r");
    assert HasPath(Build(CrLfListing), ["a\r"]);
  }
}

=== FILE: order.dfy ===
/** The order `Array.prototype.sort` puts string keys in when called without a comparator:
    lexicographic comparison, character by character. */
module Order {

  /** `a` sorts strictly before `b`. */
  predicate Lt(a: string, b: string)
    decreases |a|
  {
    if |a| == 0 then |b| > 0
    else if |b| == 0 then false
    else if a[0] != b[0] then a[0] < b[0]
    else Lt(a[1..], b[1..])
  }

  lemma {:induction false} LtIrreflexive(a: string)
    ensures !Lt(a, a)
    decreases |a|
  {
    if |a| > 0 {
      LtIrreflexive(a[1..]);
    }
  }

  lemma {:induction false} LtTransitive(a: string, b: string, c: string)
    requires Lt(a, b) && Lt(b, c)
    ensures Lt(a, c)
    decreases |a|
  {
    if |a| > 0 && a[0] == b[0] && b[0] == c[0] {
      LtTransitive(a[1..], b[1..], c[1..]);
    }
  }

  /** Any two different strings are ordered one way and not the other. */
  lemma {:induction false} LtTrichotomy(a: string, b: string)
    ensures a == b || Lt(a, b) || Lt(b, a)
    ensures !(Lt(a, b) && Lt(b, a))
    decreases |a|
  {
    if |a| > 0 && |b| > 0 && a[0] == b[0] {
      LtTrichotomy(a[1..], b[1..]);
      if a[1..] == b[1..] {
        assert a == [a[0]] + a[1..] && b == [b[0]] + b[1..];
      }
    }
  }

  predicate StrictlySorted(s: seq<string>)
  {
    forall i, j :: 0 <= i < j < |s| ==> Lt(s[i], s[j])
  }

  /** `r` lists the members of `keys` in increasing order, each once. */
  ghost predicate SortedEnumeration(r: seq<string>, keys: set<string>)
  {
    StrictlySorted(r) && forall y :: y in r <==> y in keys
  }

  /** Inserts a new key into a strictly sorted sequence at its place. */
  function InsertSorted(s: seq<string>, x: string): (r: seq<string>)
    requires StrictlySorted(s) && x !in s
    ensures StrictlySorted(r)
    ensures forall y :: y in r <==> y in s || y == x
    ensures |r| == |s| + 1
  {
    if s == [] then [x]
    else if Lt(x, s[0]) then
      assert forall j :: 0 < j < |s| ==> Lt(x, s[j]) by {
        forall j | 0 < j < |s| ensures Lt(x, s[j]) { LtTransitive(x, s[0], s[j]); }
      }
      [x] + s
    else
      LtTrichotomy(x, s[0]);
      var rest := InsertSorted(s[1..], x);
      assert forall y :: y in s[1..] ==> Lt(s[0], y);
      [s[0]] + rest
  }

  /** The sorted list of a level's keys (`Object.keys(...)` followed by `.sort()`). */
  method SortKeys(keys: set<string>) returns (r: seq<string>)
    ensures SortedEnumeration(r, keys)
    ensures |r| == |keys|
  {
    r := [];
    var rest := keys;
    while rest != {}
      invariant rest <= keys
      invariant StrictlySorted(r)
      invariant forall y :: y in r <==> y in keys && y !in rest
      invariant |r| + |rest| == |keys|
      decreases rest
    {
      var k :| k in rest;
      r := InsertSorted(r, k);
      rest := rest - {k};
    }
  }

  /** A set has only one sorted enumeration, so sorting a level's keys is deterministic
      whatever order they were inserted in. */
  lemma {:induction false} SortedEnumerationUnique(a: seq<string>, b: seq<string>, keys: set<string>)
    requires SortedEnumeration(a, keys) && SortedEnumeration(b, keys)
    ensures a == b
    decreases |a|
  {
    if a == [] {
      assert forall i :: 0 <= i < |b| ==> b[i] in keys;
    } else {
      assert a[0] in keys && a[0] in b;
      HeadIsLeast(a, keys);
      HeadIsLeast(b, keys);
      LtTrichotomy(a[0], b[0]);
      var rest := keys - {a[0]};
      SortedTail(a, keys);
      SortedTail(b, keys);
      SortedEnumerationUnique(a[1..], b[1..], rest);
      assert a == [a[0]] + a[1..] && b == [b[0]] + b[1..];
    }
  }

  lemma HeadIsLeast(a: seq<string>, keys: set<string>)
    requires a != [] && SortedEnumeration(a, keys)
    ensures forall y :: y in keys ==> y == a[0] || Lt(a[0], y)
  {
    forall y | y in keys ensures y == a[0] || Lt(a[0], y) {
      var i :| 0 <= i < |a| && a[i] == y;
    }
  }

  lemma SortedTail(a: seq<string>, keys: set<string>)
    requires a != [] && SortedEnumeration(a, keys)
    ensures SortedEnumeration(a[1..], keys - {a[0]})
  {
    forall y ensures y in a[1..] <==> y in keys - {a[0]} {
      if y in a[1..] {
        var i :| 1 <= i < |a| && a[i] == y;
        LtIrreflexive(y);
      }
      if y in keys && y != a[0] {
        assert y in a;
      }
    }
  }
}

=== FILE: path_tree.dfy ===
/** The listing parser of the index route's loader: a newline-separated list of file
    paths becomes a trie of path segments. A node with no children is drawn as a file,
    any other node as a folder. */
module PathTree {
  import Text
  import Seqs

  datatype Node = Node(children: map<string, Node>)

  const Empty := Node(map[])

  /** `p` names a node of `t`: each segment is a child of the node reached so far.
      The empty path names the root. */
  predicate HasPath(t: Node, p: seq<string>)
    decreases |p|
  {
    p == [] || (p[0] in t.children && HasPath(t.children[p[0]], p[1..]))
  }

  /** Every node of `small` is a node of `big`. */
  ghost predicate Contains(big: Node, small: Node)
  {
    forall p :: HasPath(small, p) ==> HasPath(big, p)
  }

  // ---------------------------------------------------------------------------
  // Splitting one line into segments

  /** A line is split on `/` when it has one and on `\` otherwise. */
  function Pieces(line: string): (r: seq<string>)
    ensures |r| >= 1
    ensures '/' in line ==> Text.Join(r, '/') == line
    ensures '/' !in line ==> Text.Join(r, '\\') == line
    ensures forall i :: 0 <= i < |r| ==> '/' !in r[i]
    ensures '/' !in line ==> forall i :: 0 <= i < |r| ==> '\\' !in r[i]
  {
    Text.JoinSplit(line, '/');
    Text.JoinSplit(line, '\\');
    var r := if '/' in line then Text.Split(line, '/') else Text.Split(line, '\\');
    assert forall i :: 0 <= i < |r| ==> '/' !in r[i] by {
      if '/' !in line {
        forall i | 0 <= i < |r| ensures '/' !in r[i] {
          if '/' in r[i] { JoinHasPieces(r, '\\', '/', i); }
        }
      }
    }
    r
  }

  /** Every character of every piece survives in the joined string. */
  lemma {:induction false} JoinHasPieces(parts: seq<string>, sep: char, c: char, i: int)
    requires |parts| >= 1 && 0 <= i < |parts| && c in parts[i]
    ensures c in Text.Join(parts, sep)
    decreases |parts|
  {
    if i > 0 {
      JoinHasPieces(parts[1..], sep, c, i - 1);
    }
  }

  /** Every character of the joined string other than the separator is in some piece;
      with `/` as separator this is how backslashes stay inside segment names. */
  lemma {:induction false} JoinCharsInPieces(parts: seq<string>, sep: char, c: char)
    requires |parts| >= 1 && c != sep && c in Text.Join(parts, sep)
    ensures exists i :: 0 <= i < |parts| && c in parts[i]
    decreases |parts|
  {
    if |parts| > 1 && c !in parts[0] {
      JoinCharsInPieces(parts[1..], sep, c);
      var i :| 0 <= i < |parts[1..]| && c in parts[1..][i];
      assert c in parts[i + 1];
    }
  }

  /** A line with a `/` keeps every character other than `/` inside its pieces; in
      particular each backslash stays part of a piece instead of splitting it. */
  lemma BackslashSurvives(line: string)
    requires '/' in line
    ensures forall c :: c != '/' ==> (c in line <==> exists i :: 0 <= i < |Pieces(line)| && c in Pieces(line)[i])
  {
    var r := Pieces(line);
    forall c | c != '/' ensures c in line <==> exists i :: 0 <= i < |r| && c in r[i] {
      if c in line {
        JoinCharsInPieces(r, '/', c);
      }
      if exists i :: 0 <= i < |r| && c in r[i] {
        var i :| 0 <= i < |r| && c in r[i];
        JoinHasPieces(r, '/', c, i);
      }
    }
  }

  /** Segments the parser skips: `.` and anything with a colon, such as a drive letter. */
  predicate Keep(segment: string)
  {
    segment != "." && ':' !in segment
  }

  /** The kept pieces, in their order. */
  function Filter(pieces: seq<string>): (r: seq<string>)
    ensures |r| <= |pieces|
    ensures forall i :: 0 <= i < |r| ==> Keep(r[i])
    ensures forall x :: x in r <==> x in pieces && Keep(x)
  {
    if pieces == [] then []
    else if Keep(pieces[0]) then [pieces[0]] + Filter(pieces[1..])
    else Filter(pieces[1..])
  }

  /** A single piece is kept exactly when `Keep` allows it. */
  lemma FilterOne(x: string)
    ensures Filter([x]) == if Keep(x) then [x] else []
  {
    assert [x][1..] == [];
  }

  /** Filtering works piece by piece and keeps the pieces' order: with `FilterOne` this
      fixes `Filter` as the order-preserving selection of the kept pieces. */
  lemma {:induction false} FilterAppend(a: seq<string>, b: seq<string>)
    ensures Filter(a + b) == Filter(a) + Filter(b)
    decreases |a|
  {
    if a == [] {
      assert a + b == b;
    } else {
      FilterAppend(a[1..], b);
      FilterAppendStep(a, b);
    }
  }

  lemma FilterAppendStep(a: seq<string>, b: seq<string>)
    requires a != [] && Filter(a[1..] + b) == Filter(a[1..]) + Filter(b)
    ensures Filter(a + b) == Filter(a) + Filter(b)
  {
    var head := if Keep(a[0]) then [a[0]] else [];
    FilterUnfold(a);
    Seqs.AppendTail(a, b);
    FilterUnfold(a + b);
    Seqs.AppendAssociative(head, Filter(a[1..]), Filter(b));
  }

  lemma FilterUnfold(a: seq<string>)
    requires a != []
    ensures Filter(a) == (if Keep(a[0]) then [a[0]] else []) + Filter(a[1..])
  {
  }

  /** The path a line is inserted along. */
  function Segments(line: string): (r: seq<string>)
  {
    Filter(Pieces(line))
  }

  // ---------------------------------------------------------------------------
  // Inserting one path

  /** Walks `path` from the root, creating a child only where it is missing. */
  function Insert(t: Node, path: seq<string>): (r: Node)
    ensures HasPath(r, path)
    ensures path == [] ==> r == t
    ensures path != [] ==> r.children.Keys == t.children.Keys + {path[0]}
    ensures forall k :: k in t.children && (path == [] || k != path[0]) ==>
              k in r.children && r.children[k] == t.children[k]
    decreases |path|
  {
    if path == [] then t
    else
      var k := path[0];
      var child := if k in t.children then t.children[k] else Empty;
      Node(t.children[k := Insert(child, path[1..])])
  }

  /** The nodes after inserting `q` are the nodes before plus the prefixes of `q`. */
  lemma {:induction false} InsertPaths(t: Node, q: seq<string>, p: seq<string>)
    ensures HasPath(Insert(t, q), p) <==> HasPath(t, p) || p <= q
    decreases |q|
  {
    if q != [] && p != [] {
      var k := q[0];
      var child := if k in t.children then t.children[k] else Empty;
      var r := Insert(t, q);
      assert p <= q <==> p[0] == k && p[1..] <= q[1..];
      if p[0] == k {
        assert r.children[k] == Insert(child, q[1..]);
        InsertPaths(child, q[1..], p[1..]);
        if k !in t.children && HasPath(Empty, p[1..]) {
          assert p[1..] == [];
        }
      }
    }
  }

  /** Two trees with the same nodes are the same tree. */
  lemma {:induction false} PathsDetermineTree(a: Node, b: Node)
    requires forall p :: HasPath(a, p) <==> HasPath(b, p)
    ensures a == b
    decreases a
  {
    forall k | k in a.children
      ensures k in b.children && a.children[k] == b.children[k]
    {
      assert HasPath(a, [k]);
      forall p ensures HasPath(a.children[k], p) <==> HasPath(b.children[k], p) {
        assert ([k] + p)[0] == k && ([k] + p)[1..] == p;
        assert HasPath(a, [k] + p) <==> HasPath(b, [k] + p);
      }
      PathsDetermineTree(a.children[k], b.children[k]);
    }
    forall k | k in b.children ensures k in a.children {
      assert HasPath(b, [k]);
    }
    assert a.children == b.children;
  }

  /** Insertion never loses a node. */
  lemma {:induction false} InsertMonotone(t: Node, q: seq<string>)
    ensures Contains(Insert(t, q), t)
  {
    forall p | HasPath(t, p) ensures HasPath(Insert(t, q), p) {
      InsertPaths(t, q, p);
    }
  }

  /** Inserting a path that is already there changes nothing; in particular inserting
      the same line twice is the same as inserting it once. */
  lemma InsertIdempotent(t: Node, q: seq<string>)
    ensures Insert(Insert(t, q), q) == Insert(t, q)
  {
    var once := Insert(t, q);
    forall p ensures HasPath(Insert(once, q), p) <==> HasPath(once, p) {
      InsertPaths(once, q, p);
      InsertPaths(t, q, p);
    }
    PathsDetermineTree(Insert(once, q), once);
  }

  /** The order of two insertions does not matter. */
  lemma InsertCommutes(t: Node, q1: seq<string>, q2: seq<string>)
    ensures Insert(Insert(t, q1), q2) == Insert(Insert(t, q2), q1)
  {
    var a := Insert(Insert(t, q1), q2);
    var b := Insert(Insert(t, q2), q1);
    forall p ensures HasPath(a, p) <==> HasPath(b, p) {
      InsertPaths(Insert(t, q1), q2, p);
      InsertPaths(t, q1, p);
      InsertPaths(Insert(t, q2), q1, p);
      InsertPaths(t, q2, p);
    }
    PathsDetermineTree(a, b);
  }

  // ---------------------------------------------------------------------------
  // The whole listing

  /** The lines of the listing: trimmed as a whole, then split on line feeds. Each line
      keeps its own surrounding whitespace, such as the carriage return of a CRLF file. */
  function Lines(listing: string): (r: seq<string>)
    ensures |r| >= 1
  {
    Text.Split(Text.Trim(listing), '\n')
  }

  /** One line of the loop: empty lines are skipped. */
  function Step(t: Node, line: string): Node
  {
    if line == "" then t else Insert(t, Segments(line))
  }

  /** The lines inserted one after another, first line first. */
  function InsertLines(t: Node, lines: seq<string>): Node
    decreases |lines|
  {
    if lines == [] then t else InsertLines(Step(t, lines[0]), lines[1..])
  }

  /** The tree the loader builds from the listing. */
  function Build(listing: string): Node
  {
    InsertLines(Empty, Lines(listing))
  }

  /** `p` leads along the segments of some non-empty line. */
  ghost predicate Covered(p: seq<string>, lines: seq<string>)
  {
    exists l :: l in lines && l != "" && p <= Segments(l)
  }

  lemma {:induction false} InsertLinesPaths(t: Node, lines: seq<string>, p: seq<string>)
    ensures HasPath(InsertLines(t, lines), p) <==> HasPath(t, p) || Covered(p, lines)
    decreases |lines|
  {
    if lines != [] {
      var l := lines[0];
      InsertLinesPaths(Step(t, l), lines[1..], p);
      if l != "" {
        InsertPaths(t, Segments(l), p);
      }
      if Covered(p, lines) {
        var m :| m in lines && m != "" && p <= Segments(m);
        if m != l {
          assert m in lines[1..];
        }
      }
      if Covered(p, lines[1..]) {
        var m :| m in lines[1..] && m != "" && p <= Segments(m);
        assert m in lines;
      }
    }
  }

  /** Soundness and completeness of the trie: the nodes of the built tree are the
      root and exactly the prefixes of the segment paths of the non-empty lines. */
  lemma BuildPaths(listing: string, p: seq<string>)
    ensures HasPath(Build(listing), p) <==> p == [] || Covered(p, Lines(listing))
  {
    InsertLinesPaths(Empty, Lines(listing), p);
    if HasPath(Empty, p) {
      assert p == [];
    }
  }

  /** Every non-empty line is a root-to-node path of the tree. */
  lemma BuildComplete(listing: string, line: string)
    requires line in Lines(listing) && line != ""
    ensures HasPath(Build(listing), Segments(line))
  {
    BuildPaths(listing, Segments(line));
  }

  /** Every node of the tree lies on the path of some non-empty line. */
  lemma BuildSound(listing: string, p: seq<string>)
    requires HasPath(Build(listing), p) && p != []
    ensures exists l :: l in Lines(listing) && l != "" && p <= Segments(l)
  {
    BuildPaths(listing, p);
  }

  /** No key anywhere in the built tree is `.` or contains a colon. */
  lemma BuildKeysFiltered(listing: string, p: seq<string>, i: int)
    requires HasPath(Build(listing), p) && 0 <= i < |p|
    ensures p[i] != "." && ':' !in p[i]
  {
    BuildSound(listing, p);
    var l :| l in Lines(listing) && l != "" && p <= Segments(l);
    assert p[i] == Segments(l)[i];
  }

  /** A listing that is missing, empty or only whitespace gives the empty tree. */
  lemma BlankListing(listing: string)
    requires Text.AllSpace(listing)
    ensures Build(listing) == Empty
  {
    assert Text.Trim(listing) == [];
    assert Lines(listing) == [[]];
    assert InsertLines(Empty, [[]]) == InsertLines(Empty, []);
  }

  /** The tree depends only on which lines occur, not on their order or repetition. */
  lemma LineOrderIrrelevant(xs: seq<string>, ys: seq<string>)
    requires forall l :: l in xs <==> l in ys
    ensures InsertLines(Empty, xs) == InsertLines(Empty, ys)
  {
    forall p ensures HasPath(InsertLines(Empty, xs), p) <==> HasPath(InsertLines(Empty, ys), p) {
      InsertLinesPaths(Empty, xs, p);
      InsertLinesPaths(Empty, ys, p);
    }
    PathsDetermineTree(InsertLines(Empty, xs), InsertLines(Empty, ys));
  }
}

=== FILE: render.dfy ===
/** The `Tree` component: at every level it lists the folders (keys whose node has
    children) in sorted order, each followed by its own subtree one level deeper, and then
    the files (keys whose node has no children) in sorted order. */
module Render {
  import Order
  import Seqs
  import opened PathTree

  predicate IsFolder(t: Node)
  {
    t.children != map[]
  }

  ghost function FolderKeys(t: Node): set<string>
  {
    set k | k in t.children && IsFolder(t.children[k])
  }

  ghost function FileKeys(t: Node): set<string>
  {
    set k | k in t.children && !IsFolder(t.children[k])
  }

  /** The two groups of one level: every key lands in exactly one of them, folders are
      the keys with children and files the keys without, and each group is sorted. */
  method Partition(t: Node) returns (folders: seq<string>, files: seq<string>)
    ensures forall k :: k in folders <==> k in t.children && IsFolder(t.children[k])
    ensures forall k :: k in files <==> k in t.children && !IsFolder(t.children[k])
    ensures forall k :: k in t.children <==> k in folders || k in files
    ensures forall k :: !(k in folders && k in files)
    ensures Order.StrictlySorted(folders) && Order.StrictlySorted(files)
    ensures |folders| + |files| == |t.children|
  {
    var folderSet := set k | k in t.children && IsFolder(t.children[k]);
    var fileSet := set k | k in t.children && !IsFolder(t.children[k]);
    assert folderSet + fileSet == t.children.Keys && folderSet !! fileSet;
    folders := Order.SortKeys(folderSet);
    files := Order.SortKeys(fileSet);
  }

  /** What one `<Tree>` element draws: its folder entries, each with the nested
      `<Tree>` drawn inside it, followed by its file entries. */
  datatype Listing = Listing(folders: seq<(string, Listing)>, files: seq<string>)

  function Names(entries: seq<(string, Listing)>): seq<string>
  {
    seq(|entries|, i requires 0 <= i < |entries| => entries[i].0)
  }

  /** `v` is the drawing of `t`, at every level. */
  ghost predicate Shows(v: Listing, t: Node)
    decreases v
  {
    && Order.SortedEnumeration(Names(v.folders), FolderKeys(t))
    && Order.SortedEnumeration(v.files, FileKeys(t))
    && forall i :: 0 <= i < |v.folders| ==>
         v.folders[i].0 in t.children && Shows(v.folders[i].1, t.children[v.folders[i].0])
  }

  /** Draws a tree: partitions its level, then recurses into the folders only. */
  method Draw(t: Node) returns (v: Listing)
    ensures Shows(v, t)
    decreases t
  {
    var folders, files := Partition(t);
    var entries: seq<(string, Listing)> := [];
    var i := 0;
    while i < |folders|
      invariant 0 <= i <= |folders|
      invariant |entries| == i
      invariant forall j :: 0 <= j < i ==> entries[j].0 == folders[j]
      invariant forall j :: 0 <= j < i ==>
                  folders[j] in t.children && Shows(entries[j].1, t.children[folders[j]])
    {
      var sub := Draw(t.children[folders[i]]);
      entries := entries + [(folders[i], sub)];
      i := i + 1;
    }
    assert Names(entries) == folders;
    v := Listing(entries, files);
  }

  // ---------------------------------------------------------------------------
  // Reading a tree back from its drawing

  function ToTree(v: Listing): Node
    decreases v, |v.folders| + 1
  {
    Node(FolderMap(v, 0) + map f | f in v.files :: Empty)
  }

  function FolderMap(v: Listing, i: nat): map<string, Node>
    requires i <= |v.folders|
    decreases v, |v.folders| - i
  {
    if i == |v.folders| then map[]
    else FolderMap(v, i + 1)[v.folders[i].0 := ToTree(v.folders[i].1)]
  }

  /** No two folder entries carry the same key. */
  predicate DistinctNames(entries: seq<(string, Listing)>)
  {
    forall a, b :: 0 <= a < b < |entries| ==> entries[a].0 != entries[b].0
  }

  lemma SortedNamesDistinct(entries: seq<(string, Listing)>)
    requires Order.StrictlySorted(Names(entries))
    ensures DistinctNames(entries)
  {
    var names := Names(entries);
    forall a, b | 0 <= a < b < |entries| ensures entries[a].0 != entries[b].0 {
      assert names[a] == entries[a].0 && names[b] == entries[b].0;
      Order.LtIrreflexive(names[a]);
    }
  }

  lemma {:induction false} FolderMapLookup(v: Listing, i: nat)
    requires i <= |v.folders|
    requires DistinctNames(v.folders)
    ensures forall k :: k in FolderMap(v, i) ==> exists j :: i <= j < |v.folders| && v.folders[j].0 == k
    ensures forall j :: i <= j < |v.folders| ==>
              v.folders[j].0 in FolderMap(v, i) && FolderMap(v, i)[v.folders[j].0] == ToTree(v.folders[j].1)
  {
    FolderMapKeys(v, i);
    FolderMapValues(v, i);
  }

  lemma {:induction false} FolderMapKeys(v: Listing, i: nat)
    requires i <= |v.folders|
    ensures forall k :: k in FolderMap(v, i) ==> exists j :: i <= j < |v.folders| && v.folders[j].0 == k
    decreases |v.folders| - i
  {
    if i < |v.folders| {
      FolderMapKeys(v, i + 1);
    }
  }

  lemma {:induction false} FolderMapValues(v: Listing, i: nat)
    requires i <= |v.folders|
    requires DistinctNames(v.folders)
    ensures forall j :: i <= j < |v.folders| ==>
              v.folders[j].0 in FolderMap(v, i) && FolderMap(v, i)[v.folders[j].0] == ToTree(v.folders[j].1)
    decreases |v.folders| - i
  {
    if i < |v.folders| {
      FolderMapValues(v, i + 1);
      var m := FolderMap(v, i + 1);
      assert FolderMap(v, i) == m[v.folders[i].0 := ToTree(v.folders[i].1)];
      forall j | i < j < |v.folders|
        ensures v.folders[j].0 in FolderMap(v, i) && FolderMap(v, i)[v.folders[j].0] == ToTree(v.folders[j].1)
      {
        assert v.folders[i].0 != v.folders[j].0;
      }
    }
  }

  /** Drawing loses nothing: the tree can be read back from its drawing. */
  lemma {:induction false} DrawingDeterminesTree(v: Listing, t: Node)
    requires Shows(v, t)
    ensures ToTree(v) == t
    decreases v
  {
    var r := ToTree(v);
    forall k | k in t.children ensures k in r.children && r.children[k] == t.children[k] {
      FolderEntryReadBack(v, t, k);
    }
    ReadBackKeys(v, t);
    assert r.children == t.children;
  }

  /** Every key read back from a drawing is a key of the tree drawn. */
  lemma ReadBackKeys(v: Listing, t: Node)
    requires Shows(v, t)
    ensures forall k :: k in ToTree(v).children ==> k in t.children
  {
    SortedNamesDistinct(v.folders);
    FolderMapLookup(v, 0);
    forall k | k in ToTree(v).children ensures k in t.children {
      if k in v.files {
        assert k in FileKeys(t);
      } else {
        assert k in FolderMap(v, 0);
        var j :| 0 <= j < |v.folders| && v.folders[j].0 == k;
        assert Names(v.folders)[j] == k;
        assert k in FolderKeys(t);
      }
    }
  }

  lemma {:induction false} FolderEntryReadBack(v: Listing, t: Node, k: string)
    requires Shows(v, t) && k in t.children
    ensures k in ToTree(v).children && ToTree(v).children[k] == t.children[k]
    decreases v, 0
  {
    ToTreeChildren(v);
    if IsFolder(t.children[k]) {
      assert k in FolderKeys(t) && k !in FileKeys(t);
      var j := FolderIndex(v, t, k);
      DrawingDeterminesTree(v.folders[j].1, t.children[k]);
    } else {
      assert k in FileKeys(t);
    }
  }

  /** The position of a folder key among the drawn folder entries. */
  lemma FolderIndex(v: Listing, t: Node, k: string) returns (j: int)
    requires Shows(v, t) && k in FolderKeys(t)
    ensures 0 <= j < |v.folders| && v.folders[j].0 == k
    ensures k in FolderMap(v, 0) && FolderMap(v, 0)[k] == ToTree(v.folders[j].1)
    ensures Shows(v.folders[j].1, t.children[k])
  {
    var names := Names(v.folders);
    assert k in names;
    j :| 0 <= j < |names| && names[j] == k;
    SortedNamesDistinct(v.folders);
    FolderMapLookup(v, 0);
  }

  /** The children read back: files map to empty nodes, everything else comes from
      the folder entries. */
  lemma ToTreeChildren(v: Listing)
    ensures forall k :: k in v.files ==> k in ToTree(v).children && ToTree(v).children[k] == Empty
    ensures forall k :: k !in v.files && k in FolderMap(v, 0) ==>
              k in ToTree(v).children && ToTree(v).children[k] == FolderMap(v, 0)[k]
  {
  }

  /** A tree has only one drawing: the order of entries is fixed at every level. */
  lemma {:induction false} DrawingUnique(v: Listing, w: Listing, t: Node)
    requires Shows(v, t) && Shows(w, t)
    ensures v == w
    decreases v
  {
    Order.SortedEnumerationUnique(v.files, w.files, FileKeys(t));
    Order.SortedEnumerationUnique(Names(v.folders), Names(w.folders), FolderKeys(t));
    assert |v.folders| == |w.folders| by {
      assert |Names(v.folders)| == |Names(w.folders)|;
    }
    forall i | 0 <= i < |v.folders| ensures v.folders[i] == w.folders[i] {
      assert Names(v.folders)[i] == Names(w.folders)[i];
      var k := v.folders[i].0;
      DrawingUnique(v.folders[i].1, w.folders[i].1, t.children[k]);
    }
  }

  // ---------------------------------------------------------------------------
  // The rows in document order

  /** One `<li>`: the key shown, its depth, and whether it got a folder icon. */
  datatype Row = Row(name: string, level: nat, folder: bool)

  function Rows(v: Listing, level: nat): seq<Row>
    decreases v, |v.folders| + 1
  {
    FolderRows(v, 0, level) + FileRows(v.files, level)
  }

  function FolderRows(v: Listing, i: nat, level: nat): seq<Row>
    requires i <= |v.folders|
    decreases v, |v.folders| - i
  {
    if i == |v.folders| then []
    else [Row(v.folders[i].0, level, true)] + Rows(v.folders[i].1, level + 1) + FolderRows(v, i + 1, level)
  }

  function FileRows(files: seq<string>, level: nat): seq<Row>
  {
    seq(|files|, j requires 0 <= j < |files| => Row(files[j], level, false))
  }

  function FolderHeads(entries: seq<(string, Listing)>, level: nat): seq<Row>
  {
    seq(|entries|, j requires 0 <= j < |entries| => Row(entries[j].0, level, true))
  }

  /** The rows drawn at exactly `level`, in order. */
  function AtLevel(rows: seq<Row>, level: nat): seq<Row>
  {
    if rows == [] then []
    else (if rows[0].level == level then [rows[0]] else []) + AtLevel(rows[1..], level)
  }

  lemma {:induction false} AtLevelAppend(a: seq<Row>, b: seq<Row>, level: nat)
    ensures AtLevel(a + b, level) == AtLevel(a, level) + AtLevel(b, level)
    decreases |a|
  {
    if a != [] {
      assert (a + b)[0] == a[0] && (a + b)[1..] == a[1..] + b;
      AtLevelAppend(a[1..], b, level);
      var h := if a[0].level == level then [a[0]] else [];
      assert AtLevel(a + b, level) == h + AtLevel(a[1..] + b, level);
      assert AtLevel(a, level) == h + AtLevel(a[1..], level);
    } else {
      assert a + b == b;
    }
  }

  lemma {:induction false} AtLevelDeeper(rows: seq<Row>, level: nat)
    requires forall i :: 0 <= i < |rows| ==> rows[i].level > level
    ensures AtLevel(rows, level) == []
    decreases |rows|
  {
    if rows != [] {
      AtLevelDeeper(rows[1..], level);
    }
  }

  lemma {:induction false} AtLevelAll(rows: seq<Row>, level: nat)
    requires forall i :: 0 <= i < |rows| ==> rows[i].level == level
    ensures AtLevel(rows, level) == rows
    decreases |rows|
  {
    if rows != [] {
      AtLevelAll(rows[1..], level);
      assert rows == [rows[0]] + rows[1..];
    }
  }

  /** A nested listing is drawn strictly deeper than the level it is nested in. */
  lemma {:induction false} RowsDeeper(v: Listing, level: nat)
    ensures forall i :: 0 <= i < |Rows(v, level)| ==> Rows(v, level)[i].level >= level
    decreases v, |v.folders| + 1
  {
    FolderRowsDeeper(v, 0, level);
  }

  lemma {:induction false} FolderRowsDeeper(v: Listing, i: nat, level: nat)
    requires i <= |v.folders|
    ensures forall j :: 0 <= j < |FolderRows(v, i, level)| ==> FolderRows(v, i, level)[j].level >= level
    decreases v, |v.folders| - i
  {
    if i < |v.folders| {
      RowsDeeper(v.folders[i].1, level + 1);
      FolderRowsDeeper(v, i + 1, level);
    }
  }

  lemma {:induction false} FolderRowsTop(v: Listing, i: nat, level: nat)
    requires i <= |v.folders|
    ensures AtLevel(FolderRows(v, i, level), level) == FolderHeads(v.folders[i..], level)
    decreases |v.folders| - i
  {
    if i < |v.folders| {
      var head := [Row(v.folders[i].0, level, true)];
      var sub := Rows(v.folders[i].1, level + 1);
      RowsDeeper(v.folders[i].1, level + 1);
      AtLevelDeeper(sub, level);
      AtLevelAppend(head + sub, FolderRows(v, i + 1, level), level);
      AtLevelAppend(head, sub, level);
      FolderRowsTop(v, i + 1, level);
      assert v.folders[i..][1..] == v.folders[i + 1..];
      assert FolderHeads(v.folders[i..], level) == head + FolderHeads(v.folders[i + 1..], level);
    } else {
      assert v.folders[i..] == [];
    }
  }

  /** The rows of a level itself are all of its folders, in order, and then all of its
      files, in order; every other row belongs to a deeper level. */
  lemma RowsOfLevel(v: Listing, level: nat)
    ensures AtLevel(Rows(v, level), level) == FolderHeads(v.folders, level) + FileRows(v.files, level)
    ensures forall i :: 0 <= i < |Rows(v, level)| ==> Rows(v, level)[i].level >= level
  {
    RowsDeeper(v, level);
    AtLevelAppend(FolderRows(v, 0, level), FileRows(v.files, level), level);
    FolderRowsTop(v, 0, level);
    assert v.folders[0..] == v.folders;
    AtLevelAll(FileRows(v.files, level), level);
  }

  // ---------------------------------------------------------------------------
  // Reading a drawing back from its rows

  /** How many rows at the front lie deeper than `level`: the subtree drawn under the
      folder row just before them. */
  function DeeperRun(rows: seq<Row>, level: nat): (n: nat)
    ensures n <= |rows|
    ensures forall j :: 0 <= j < n ==> rows[j].level > level
    ensures n == |rows| || rows[n].level <= level
    decreases |rows|
  {
    if rows == [] || rows[0].level <= level then 0 else 1 + DeeperRun(rows[1..], level)
  }

  /** Parses rows drawn at `level` back into a listing: a folder row takes the deeper rows
      after it as its subtree, a file row is one file. */
  function FromRows(rows: seq<Row>, level: nat): Listing
    decreases |rows|
  {
    if rows == [] then Listing([], [])
    else if rows[0].folder then
      var n := DeeperRun(rows[1..], level);
      var rest := FromRows(rows[1 + n..], level);
      Listing([(rows[0].name, FromRows(rows[1..1 + n], level + 1))] + rest.folders, rest.files)
    else
      var rest := FromRows(rows[1..], level);
      Listing(rest.folders, [rows[0].name] + rest.files)
  }

  /** The rows are a faithful flattening: every folder's subtree sits right after its row,
      one level deeper, so the drawing can be parsed back from them. */
  lemma {:induction false} RowsReadBack(v: Listing, level: nat)
    ensures FromRows(Rows(v, level), level) == v
    decreases v, |v.folders| + 1
  {
    FolderRowsReadBack(v, 0, level);
    assert v.folders[0..] == v.folders;
  }

  lemma {:induction false} FolderRowsReadBack(v: Listing, i: nat, level: nat)
    requires i <= |v.folders|
    ensures FromRows(FolderRows(v, i, level) + FileRows(v.files, level), level) == Listing(v.folders[i..], v.files)
    decreases v, |v.folders| - i
  {
    if i == |v.folders| {
      assert FolderRows(v, i, level) + FileRows(v.files, level) == FileRows(v.files, level);
      FileRowsReadBack(v.files, level);
      assert v.folders[i..] == [];
    } else {
      RowsReadBack(v.folders[i].1, level + 1);
      FolderRowsReadBack(v, i + 1, level);
      FolderRowsReadBackStep(v, i, level);
    }
  }

  lemma FolderRowsReadBackStep(v: Listing, i: nat, level: nat)
    requires i < |v.folders|
    requires FromRows(Rows(v.folders[i].1, level + 1), level + 1) == v.folders[i].1
    requires FromRows(FolderRows(v, i + 1, level) + FileRows(v.files, level), level) == Listing(v.folders[i + 1..], v.files)
    ensures FromRows(FolderRows(v, i, level) + FileRows(v.files, level), level) == Listing(v.folders[i..], v.files)
  {
    var sub := Rows(v.folders[i].1, level + 1);
    var tail := FolderRows(v, i + 1, level) + FileRows(v.files, level);
    FolderRowsUnfold(v, i, level);
    RowsDeeper(v.folders[i].1, level + 1);
    TailStartsAtLevel(v, i + 1, level);
    FromRowsFolder(Row(v.folders[i].0, level, true), sub, tail, level);
    Seqs.SliceCons(v.folders, i);
  }

  lemma FolderRowsUnfold(v: Listing, i: nat, level: nat)
    requires i < |v.folders|
    ensures FolderRows(v, i, level) + FileRows(v.files, level) ==
              [Row(v.folders[i].0, level, true)] + (Rows(v.folders[i].1, level + 1) + (FolderRows(v, i + 1, level) + FileRows(v.files, level)))
  {
    var head := [Row(v.folders[i].0, level, true)];
    var sub := Rows(v.folders[i].1, level + 1);
    var rest := FolderRows(v, i + 1, level);
    var files := FileRows(v.files, level);
    assert FolderRows(v, i, level) == head + sub + rest;
    Seqs.AppendAssociative(head + sub, rest, files);
    Seqs.AppendAssociative(head, sub, rest + files);
  }

  /** Parsing a folder row: the deeper rows right after it are its subtree. */
  lemma FromRowsFolder(head: Row, sub: seq<Row>, tail: seq<Row>, level: nat)
    requires head.folder
    requires forall j :: 0 <= j < |sub| ==> sub[j].level >= level + 1
    requires tail == [] || tail[0].level == level
    ensures FromRows([head] + (sub + tail), level) ==
              Listing([(head.name, FromRows(sub, level + 1))] + FromRows(tail, level).folders, FromRows(tail, level).files)
  {
    var rows := [head] + (sub + tail);
    assert rows[0] == head && rows[1..] == sub + tail;
    DeeperRunExact(sub, tail, level);
    assert rows[1..1 + |sub|] == sub && rows[1 + |sub|..] == tail;
  }

  lemma {:induction false} FileRowsReadBack(files: seq<string>, level: nat)
    ensures FromRows(FileRows(files, level), level) == Listing([], files)
    decreases |files|
  {
    if files != [] {
      var rows := FileRows(files, level);
      assert rows[0] == Row(files[0], level, false);
      assert rows[1..] == FileRows(files[1..], level);
      FileRowsReadBack(files[1..], level);
      assert files == [files[0]] + files[1..];
    }
  }

  /** What follows a folder's subtree starts back at the folder's own level. */
  lemma TailStartsAtLevel(v: Listing, i: nat, level: nat)
    requires i <= |v.folders|
    ensures var tail := FolderRows(v, i, level) + FileRows(v.files, level);
            tail == [] || tail[0].level == level
  {
    if i == |v.folders| {
      assert FolderRows(v, i, level) == [];
    }
  }

  lemma DeeperRunExact(a: seq<Row>, b: seq<Row>, level: nat)
    requires forall j :: 0 <= j < |a| ==> a[j].level >= level + 1
    requires b == [] || b[0].level == level
    ensures DeeperRun(a + b, level) == |a|
  {
    assert forall j :: 0 <= j < |a| ==> (a + b)[j] == a[j];
    assert |a| < |a + b| ==> (a + b)[|a|] == b[0];
  }


  /** The rows of a tree's drawing determine the tree. */
  lemma RowsDetermineTree(v: Listing, t: Node)
    requires Shows(v, t)
    ensures ToTree(FromRows(Rows(v, 0), 0)) == t
  {
    RowsReadBack(v, 0);
    DrawingDeterminesTree(v, t);
  }
}

=== FILE: seqs.dfy ===
/** Small facts about sequences that the parser and the drawing proofs share. */
module Seqs {
  lemma AppendTail<T>(a: seq<T>, b: seq<T>)
    requires a != []
    ensures (a + b)[0] == a[0] && (a + b)[1..] == a[1..] + b
  {
  }

  lemma AppendAssociative<T>(x: seq<T>, y: seq<T>, z: seq<T>)
    ensures x + (y + z) == (x + y) + z
  {
  }

  lemma SliceCons<T>(s: seq<T>, i: nat)
    requires i < |s|
    ensures s[i..] == [s[i]] + s[i + 1..]
  {
  }
}

=== FILE: session.dfy ===
/** The index route's session round trip: the loader reads the listing and the theme
    from the cookie session, and the action writes a submitted form back into it. */
module Session {
  import opened PathTree

  datatype Option<T> = None | Some(value: T)

  /** The three colours of the drawing. */
  datatype Theme = Theme(background: string, foreground: string, lines: string)

  const DefaultTheme := Theme("#15232d", "#cdcdcd", "#cdcdcd")

  /** The two session fields; a new visitor has neither. */
  datatype SessionData = SessionData(files: Option<string>, theme: Option<Theme>)

  /** A form submission. `action` is present only when the reset button sent the form;
      `files` is absent when the form had no listing field. */
  datatype Form = Form(action: Option<string>, files: Option<string>, background: string, foreground: string, lines: string)

  /** What the loader hands to the page. */
  datatype Page = Page(files: string, tree: Node, theme: Theme)

  predicate IsReset(f: Form)
  {
    f.action == Some("resetTheme")
  }

  function Submitted(f: Form): Theme
  {
    Theme(f.background, f.foreground, f.lines)
  }

  /** The loader: a missing listing reads as the empty string and a missing theme as the
      default, and the tree is built from the listing. */
  function Load(s: SessionData): (p: Page)
    ensures s.files.None? ==> p.files == "" && p.tree == Empty
    ensures s.files.Some? ==> p.files == s.files.value
    ensures s.theme.None? ==> p.theme == DefaultTheme
    ensures s.theme.Some? ==> p.theme == s.theme.value
    ensures p.tree == Build(p.files)
  {
    var files := if s.files.Some? then s.files.value else "";
    BlankListing("");
    Page(files, Build(files), if s.theme.Some? then s.theme.value else DefaultTheme)
  }

  /** The action, with the default theme as an immutable value. A reset replaces only the
      theme; any other submission replaces the listing and all three colours. */
  function Action(s: SessionData, f: Form): (r: SessionData)
    ensures r.theme.Some?
    ensures IsReset(f) ==> r.files == s.files && r.theme.value == DefaultTheme
    ensures !IsReset(f) ==> r.files == f.files && r.theme.value == Submitted(f)
  {
    match f.action
    case Some("resetTheme") => SessionData(s.files, Some(DefaultTheme))
    case _ => SessionData(f.files, Some(Theme(f.background, f.foreground, f.lines)))
  }

  /** Submitting and then reloading shows what was submitted. */
  lemma SubmitThenLoad(s: SessionData, f: Form)
    requires !IsReset(f)
    ensures Load(Action(s, f)).theme == Submitted(f)
    ensures f.files.Some? ==> Load(Action(s, f)).files == f.files.value
    ensures f.files.None? ==> Load(Action(s, f)).tree == Empty
  {
  }

  /** Requests from one visitor, oldest first. */
  function Run(s: SessionData, forms: seq<Form>): SessionData
    decreases |forms|
  {
    if forms == [] then s else Run(Action(s, forms[0]), forms[1..])
  }

  /** The listing of the latest submission that was not a reset, if any. */
  function LatestListing(initial: Option<string>, forms: seq<Form>): Option<string>
    decreases |forms|
  {
    if forms == [] then initial
    else
      var last := forms[|forms| - 1];
      if IsReset(last) then LatestListing(initial, forms[..|forms| - 1]) else last.files
  }

  /** The theme the latest request left: the default after a reset, the submitted colours
      otherwise. */
  function LatestTheme(initial: Option<Theme>, forms: seq<Form>): Option<Theme>
    decreases |forms|
  {
    if forms == [] then initial
    else
      var last := forms[|forms| - 1];
      Some(if IsReset(last) then DefaultTheme else Submitted(last))
  }

  /** After any sequence of requests the session holds the listing of the latest real
      submission and the theme of the latest request, whatever came before. */
  lemma {:induction false} RunState(s: SessionData, forms: seq<Form>)
    ensures Run(s, forms).files == LatestListing(s.files, forms)
    ensures Run(s, forms).theme == LatestTheme(s.theme, forms)
    decreases |forms|
  {
    if forms != [] {
      var s' := Action(s, forms[0]);
      RunState(s', forms[1..]);
      LatestAfterFirst(s, forms);
    }
  }

  lemma {:induction false} LatestAfterFirst(s: SessionData, forms: seq<Form>)
    requires forms != []
    ensures LatestListing(Action(s, forms[0]).files, forms[1..]) == LatestListing(s.files, forms)
    ensures LatestTheme(Action(s, forms[0]).theme, forms[1..]) == LatestTheme(s.theme, forms)
    decreases |forms|
  {
    if |forms| > 1 {
      var init := forms[..|forms| - 1];
      LatestAfterFirst(s, init);
      assert init[1..] == forms[1..][..|forms[1..]| - 1];
      assert init[0] == forms[0];
    }
  }

  /** A reset always restores exactly the default colours, whatever came before. */
  lemma ResetRestoresDefault(s: SessionData, forms: seq<Form>, reset: Form)
    requires IsReset(reset)
    ensures Load(Run(s, forms + [reset])).theme == DefaultTheme
  {
    RunState(s, forms + [reset]);
  }

  // ---------------------------------------------------------------------------
  // The action as the route writes it

  /** The action with `defaultTheme` as the module-level object it is in the route. When
      the session has no theme yet, the object the colours are written into is that
      shared default itself, so the default the server process holds changes. The
      result is the new server default and the new session. */
  function ActionAsWritten(default: Theme, s: SessionData, f: Form): (Theme, SessionData)
  {
    if IsReset(f) then (default, SessionData(s.files, Some(default)))
    else
      var updated := Submitted(f);
      var newDefault := if s.theme.None? then updated else default;
      (newDefault, SessionData(f.files, Some(updated)))
  }

  /** The loader as written reads the module-level default. */
  function LoadThemeAsWritten(default: Theme, s: SessionData): Theme
  {
    if s.theme.Some? then s.theme.value else default
  }

  /** A new visitor who picks colours other than the default and then presses reset
      gets their own colours back, not the default ones; so does every new visitor who
      loads the page after them. */
  lemma ResetAfterFirstSubmitAsWritten(pick: Form, reset: Form)
    requires !IsReset(pick) && IsReset(reset) && Submitted(pick) != DefaultTheme
    ensures
      var first := ActionAsWritten(DefaultTheme, SessionData(None, None), pick);
      var second := ActionAsWritten(first.0, first.1, reset);
      && second.1.theme == Some(Submitted(pick))
      && second.1.theme != Some(DefaultTheme)
      && LoadThemeAsWritten(second.0, SessionData(None, None)) != DefaultTheme
  {
  }

  /** The two actions agree except on the server default they leave behind: with a
      default that is never written to, the route's action is the corrected one. */
  lemma AsWrittenAgreesWhileDefaultUntouched(s: SessionData, f: Form)
    ensures ActionAsWritten(DefaultTheme, s, f).1 == Action(s, f)
    ensures ActionAsWritten(DefaultTheme, s, f).0 != DefaultTheme <==>
              !IsReset(f) && s.theme.None? && Submitted(f) != DefaultTheme
  {
  }
}

=== FILE: text.dfy ===
/** String handling the listing parser relies on: JavaScript's `String.prototype.trim`
    and `String.prototype.split` with a one-character separator. */
module Text {

  /** The characters `trim` removes: ECMAScript WhiteSpace (tab, vertical tab, form feed,
      space, no-break space, byte-order mark and the Zs category) and LineTerminator
      (line feed, carriage return, line and paragraph separators). */
  const Whitespace: set<char> := {
    '\t', '\n', '\U{B}', '\U{C}', '\r', ' ', '\U{A0}', '\U{1680}',
    '\U{2000}', '\U{2001}', '\U{2002}', '\U{2003}', '\U{2004}', '\U{2005}',
    '\U{2006}', '\U{2007}', '\U{2008}', '\U{2009}', '\U{200A}',
    '\U{2028}', '\U{2029}', '\U{202F}', '\U{205F}', '\U{3000}', '\U{FEFF}'
  }

  predicate IsSpace(c: char)
  {
    c in Whitespace
  }

  predicate AllSpace(s: string)
  {
    forall i :: 0 <= i < |s| ==> IsSpace(s[i])
  }

  /** The first index at or after `i` whose character is not whitespace, or `|s|`. */
  function SkipSpace(s: string, i: nat): (k: nat)
    requires i <= |s|
    ensures i <= k <= |s|
    ensures forall j :: i <= j < k ==> IsSpace(s[j])
    ensures k == |s| || !IsSpace(s[k])
    decreases |s| - i
  {
    if i < |s| && IsSpace(s[i]) then SkipSpace(s, i + 1) else i
  }

  /** The least index `k >= lo` such that `s[k..hi]` is all whitespace. */
  function SkipSpaceBack(s: string, lo: nat, hi: nat): (k: nat)
    requires lo <= hi <= |s|
    ensures lo <= k <= hi
    ensures forall j :: k <= j < hi ==> IsSpace(s[j])
    ensures k == lo || !IsSpace(s[k - 1])
    decreases hi - lo
  {
    if lo < hi && IsSpace(s[hi - 1]) then SkipSpaceBack(s, lo, hi - 1) else hi
  }

  /** `r` sits in `s` at offset `i` and everything around it is whitespace. */
  ghost predicate TrimmedAt(r: string, s: string, i: int)
  {
    && 0 <= i <= |s| - |r| && r == s[i..i + |r|]
    && (forall j :: 0 <= j < i ==> IsSpace(s[j]))
    && (forall j :: i + |r| <= j < |s| ==> IsSpace(s[j]))
  }

  /** `r` is `s` with whitespace removed from both ends, and only from the ends. */
  ghost predicate IsTrimOf(r: string, s: string)
  {
    && (exists i :: TrimmedAt(r, s, i))
    && (r == [] || (!IsSpace(r[0]) && !IsSpace(r[|r| - 1])))
  }

  /** `s.trim()`. */
  function Trim(s: string): (r: string)
    ensures IsTrimOf(r, s)
    ensures r == [] <==> AllSpace(s)
  {
    var i := SkipSpace(s, 0);
    var j := SkipSpaceBack(s, i, |s|);
    assert TrimmedAt(s[i..j], s, i);
    assert j > i ==> s[i..j][0] == s[i] && s[i..j][j - i - 1] == s[j - 1];
    s[i..j]
  }

  /** The pieces of `s` between occurrences of the separator, as `s.split(sep)` returns
      them: empty pieces are kept, and the empty string yields one empty piece. */
  function Split(s: string, sep: char): (r: seq<string>)
    ensures |r| >= 1
    ensures forall i :: 0 <= i < |r| ==> sep !in r[i]
    decreases |s|
  {
    if s == [] then [[]]
    else
      var rest := Split(s[1..], sep);
      if s[0] == sep then [[]] + rest else [[s[0]] + rest[0]] + rest[1..]
  }

  /** The pieces glued back together with the separator between them (`parts.join(sep)`). */
  function Join(parts: seq<string>, sep: char): string
    requires |parts| >= 1
  {
    if |parts| == 1 then parts[0] else parts[0] + [sep] + Join(parts[1..], sep)
  }

  /** Splitting loses nothing: joining the pieces gives back the input. */
  lemma {:induction false} JoinSplit(s: string, sep: char)
    ensures Join(Split(s, sep), sep) == s
    decreases |s|
  {
    if s != [] {
      var rest := Split(s[1..], sep);
      JoinSplit(s[1..], sep);
      if s[0] == sep {
        assert Split(s, sep) == [[]] + rest;
        assert ([[]] + rest)[1..] == rest;
      } else {
        var r := [[s[0]] + rest[0]] + rest[1..];
        assert Split(s, sep) == r;
        if |rest| == 1 {
          assert Join(rest, sep) == rest[0];
        } else {
          assert r[1..] == rest[1..];
          assert Join(rest, sep) == rest[0] + [sep] + Join(rest[1..], sep);
        }
      }
    }
  }

  /** Pieces free of the separator are exactly what splitting their join returns. */
  lemma {:induction false} SplitJoin(parts: seq<string>, sep: char)
    requires |parts| >= 1
    requires forall i :: 0 <= i < |parts| ==> sep !in parts[i]
    ensures Split(Join(parts, sep), sep) == parts
    decreases |parts|, |parts[0]|
  {
    var p := parts[0];
    if p == [] {
      if |parts| > 1 {
        var tail := Join(parts[1..], sep);
        assert Join(parts, sep) == [sep] + tail;
        assert ([sep] + tail)[1..] == tail;
        SplitJoin(parts[1..], sep);
        assert parts == [[]] + parts[1..];
      }
    } else {
      var rest := [p[1..]] + parts[1..];
      assert rest[1..] == parts[1..];
      assert forall i :: 0 <= i < |rest| ==> sep !in rest[i] by {
        forall i | 0 <= i < |rest| ensures sep !in rest[i] {
          if i == 0 {
            assert sep !in p;
            assert forall c :: c in p[1..] ==> c in p;
          } else {
            assert rest[i] == parts[i];
          }
        }
      }
      SplitJoin(rest, sep);
      var s := Join(parts, sep);
      if |parts| == 1 {
        assert s == p && s[1..] == Join(rest, sep);
      } else {
        assert s == [p[0]] + (p[1..] + [sep] + Join(parts[1..], sep));
        assert s[1..] == Join(rest, sep);
      }
      assert s[0] == p[0] && s[0] != sep;
      assert Split(s, sep) == [[p[0]] + p[1..]] + parts[1..];
      assert [p[0]] + p[1..] == p;
      assert parts == [p] + parts[1..];
    }
  }
}
